=== FILE: README.md ===
# spy status-file codec in Dafny

`spy` is a small Python 2 library for watching long-running jobs. A job calls
`write(fd, name, time, percent_complete)`, which fills a status file with four
`key:value` lines: `name`, `time`, `complete` and `eta`. `parse_status` reads
every file in the status directory back. Each file becomes a list of records,
and each record is a list of fields. To get them it strips the file's text,
splits it on `\n` and splits each line on every `:`.

This project models that text codec and proves what it guarantees:

- `text.dfy` (module `Text`) holds Python's `str.split` on one separator
  and `str.strip()` with Python 2's whitespace set (space, `\t`, `\n`,
  `\r`, `\x0b`, `\x0c`). It also holds `str.join` on one separator. The
  source never calls `join`; it is the reference definition that the split
  and render lemmas are stated against. Split and join are proved inverses,
  and strip is proved to remove exactly the whitespace at the ends.
- `decimal.dfy` (module `Decimal`) holds `'%d' % n` for an integer, plus an
  independent reading of numerals. The two are proved inverse.
- `spy.dfy` (module `Spy`) holds the records `write` emits, the text it leaves
  in the file, the `parse_file` lambda and `parse_status`.
- `spy_properties.dfy` (module `SpyProperties`) holds the layout of a written
  file, what parsing keeps and loses, and exactly when parsing a written file
  gives back what was written.

Files are modelled as the strings they contain. The status directory is the
sequence of its files' contents, in listing order. `write` is modelled on a
`Status` value whose `name` is the string `%s` prints for the `name` argument
(`str()` of any object), whose `time` and `eta` are the integers `%d`
prints, and whose `complete` is the already-rendered percentage string.

## Model

| member | source | states |
|---|---|---|
| Spy.Seconds | build/spy/spy/__init__.py:25 | `'%d seconds' % n` is a numeral denoting `n` followed by ` seconds`; it holds no `:` or `\n` and has no whitespace at either end |
| Spy.Records | build/spy/spy/__init__.py:23-28 | `write` formats exactly four records whose keys are `name`, `time`, `complete`, `eta`, in that order |
| Spy.Written | build/spy/spy/__init__.py:29-30 | writing the lines through `any(imap(...))` leaves a prefix of the full rendering in the file, and all of it when no `fd.write` call returns a truthy value; where it stops otherwise is stated by Spy.WrittenStops |
| Spy.WrittenStops | build/spy/spy/__init__.py:29-30 | when the write of line `j` is the first to return a truthy value, `any` stops there and the file holds exactly lines `0` to `j` |
| Spy.Body | build/spy/spy/__init__.py:29 | definition of `'%s:%s' % (key, value)`, without the line end; described by SpyProperties.RenderAsJoin and SpyProperties.BodyCount |
| Spy.Line | build/spy/spy/__init__.py:29 | definition of `'%s:%s\n' % (key, value)`; described by SpyProperties.RenderAsJoin and SpyProperties.WriteLayout |
| Spy.Render | build/spy/spy/__init__.py:30 | definition of the in-order concatenation of the lines; described by SpyProperties.RenderAppend, SpyProperties.RenderAsJoin and SpyProperties.WriteLayout |
| Spy.FileWriteReturned | build/spy/spy/__init__.py:29-30 | definition: the truthiness of what Python 2's `file.write` returns, which is `None`, so always false; `Spy.Write`'s contract rests on it |
| Spy.Write | build/spy/spy/__init__.py:21-31 | since Python 2's `file.write` returns `None`, the file ends up holding every record's line in order |
| Spy.ParseFile | build/spy/spy/__init__.py:17 | there is one record per `\n` of the stripped text plus one, one field per `:` of the line plus one, and no field holds `:` or `\n` |
| Text.SplitAbsent | build/spy/spy/__init__.py:17 | splitting never introduces a character: one absent from the string is absent from every piece |
| Spy.ParseStatus | build/spy/spy/__init__.py:16-18 | entry `k` of the result is the parse of file `k`: one parsed file per directory entry, in order, and none of them has zero records |
| SpyProperties.ParseStatusAppend | build/spy/spy/__init__.py:18 | files are parsed independently: the parse of a listing split in two is the two parses, concatenated in order |
| Text.Split | build/spy/spy/__init__.py:17 | `split(sep)` yields one piece per separator plus one, even on the empty string, and no piece holds the separator |
| Text.JoinSplit | build/spy/spy/__init__.py:17 | joining the pieces of a split with the same separator restores the string |
| Text.JoinCount | build/spy/spy/__init__.py:17 | a join of one or more parts holds exactly the separators inside the parts plus one between each two neighbouring parts |
| Text.SplitJoin | build/spy/spy/__init__.py:17 | splitting a join of one or more separator-free parts returns exactly those parts |
| Text.SplitNoSeparator | build/spy/spy/__init__.py:17 | a string without the separator splits into itself alone |
| Text.SplitAround | build/spy/spy/__init__.py:17 | splitting at a separator splits the two sides independently |
| Text.StripLeft | build/spy/spy/__init__.py:17 | definition of the leading half of `strip()`; described by Text.StripLeftSpec and Text.StripLeftFrame |
| Text.StripRight | build/spy/spy/__init__.py:17 | definition of the trailing half of `strip()`; described by Text.StripRightSpec and Text.StripRightFrame |
| Text.StripLeftSpec | build/spy/spy/__init__.py:17 | the leading whitespace is removed, and only that: the result is a suffix of the input and does not start with whitespace |
| Text.StripRightSpec | build/spy/spy/__init__.py:17 | the trailing whitespace is removed, and only that: the result is a prefix of the input and does not end with whitespace |
| Text.Strip | build/spy/spy/__init__.py:17 | `strip()` yields text with no whitespace at either end; it is empty exactly when the input is all whitespace; text already trimmed is unchanged |
| Text.StripFrame | build/spy/spy/__init__.py:17 | whitespace around trimmed text is exactly what `strip()` removes |
| Text.StripBounds | build/spy/spy/__init__.py:17 | any text is its stripped text with whitespace-only parts on either side |
| Text.StripAround | build/spy/spy/__init__.py:17 | adding whitespace around text does not change what `strip()` returns |
| Decimal.Digits | build/spy/spy/__init__.py:25 | `%d` of a natural number is a digit string without leading zeros that denotes the number |
| Decimal.Show | build/spy/spy/__init__.py:25 | `%d` of any integer is a numeral, with `-` only for negatives, and it denotes the integer |
| Decimal.DigitsOfValue | build/spy/spy/__init__.py:25 | every digit string without leading zeros is what `%d` prints for its value |
| Decimal.ShowInjective | build/spy/spy/__init__.py:25 | distinct integers print as distinct numerals, so a `seconds` field determines its number |
| Decimal.ShowOfIntValue | build/spy/spy/__init__.py:25 | every numeral is what `%d` prints for its value, so printing and reading are inverse |
| SpyProperties.RenderAppend | build/spy/spy/__init__.py:29-30 | the text of a record list is the text of its parts, concatenated |
| SpyProperties.RenderAsJoin | build/spy/spy/__init__.py:29-30 | each line is key, `:`, value, `\n`, with nothing added: the file is the line bodies joined by `\n` plus one final `\n` |
| SpyProperties.RenderFour | build/spy/spy/__init__.py:29-30 | four records are written as their four lines, in order, with nothing between them |
| SpyProperties.WriteLayout | build/spy/spy/__init__.py:23-30 | a written status file is exactly the `name`, `time`, `complete` and `eta` lines, in this order |
| SpyProperties.ParseFileLossless | build/spy/spy/__init__.py:17 | parsing loses only the surrounding whitespace: rejoining fields by `:` and records by `\n` gives the stripped text |
| SpyProperties.ParseEmpty | build/spy/spy/__init__.py:17 | text parses to `[[""]]` if and only if it is empty or all whitespace |
| SpyProperties.ParseIgnoresSurroundingSpace | build/spy/spy/__init__.py:17 | whitespace before or after the text, including the final `\n`, never yields an extra record |
| SpyProperties.StripRendered | build/spy/spy/__init__.py:17-30 | for a non-empty record list whose first key does not start, and whose last value does not end, with whitespace, stripping a written file removes the final `\n` and nothing else |
| SpyProperties.ParseRendered | build/spy/spy/__init__.py:17-30 | for a non-empty record list whose first key does not start, and whose last value does not end, with whitespace, and with no `\n` in any key or value, each written record comes back as its own row, its line split on every `:` |
| SpyProperties.ColonInField | build/spy/spy/__init__.py:17-30 | for a non-empty record list whose first key does not start, and whose last value does not end, with whitespace, and with no `\n` in any key or value, a `:` inside a key or value gives that record more than two fields, so the round trip fails |
| SpyProperties.NewlineInField | build/spy/spy/__init__.py:17-30 | for a non-empty record list whose first key does not start, and whose last value does not end, with whitespace, a `\n` inside any key or value gives more records than were written, so the round trip fails |
| SpyProperties.RoundTripOnlyIf | build/spy/spy/__init__.py:17-30 | for every record list, with no condition on its ends: if the written text parses back to exactly `[[key, value], …]`, then no key or value holds `:` or `\n` |
| SpyProperties.RoundTrip | build/spy/spy/__init__.py:17-30 | for a non-empty record list whose first key does not start, and whose last value does not end, with whitespace, parsing the written text gives back exactly `[[key, value], …]` in order if and only if no key or value holds `:` or `\n` |
| SpyProperties.WriteRoundTrip | build/spy/spy/__init__.py:17-31 | a status file parses back to its four `[key, value]` rows if and only if neither the name nor the percentage string, taken as an arbitrary string, holds `:` or `\n` |
| SpyProperties.LayoutClean | build/spy/spy/__init__.py:24-27 | none of the four keys holds `:` or `\n` |
| SpyProperties.BreaksOfRecords | build/spy/spy/__init__.py:23-28 | of the four fields, only the name and the percentage string, taken as an arbitrary string, can hold a separator; keys and `seconds` values never do |
| SpyProperties.ColonInValue | build/spy/spy/__init__.py:17-30 | in a one-record file, a value `a:b`, such as a clock-style duration, comes back as the three fields key, `a`, `b` |
| SpyProperties.TrailingSpaceLost | build/spy/spy/__init__.py:17-30 | in a one-record file, trailing whitespace on the value is removed by `strip()` and does not come back |

## Left out

- The `SPY_BASE` environment lookup and the `makedirs` call (lines 9-14) are environment set-up with no text behaviour.
- `glob`, `open`, `read` and `close` (lines 17-18, 29-31) are file I/O. A file is modelled as its contents, and the directory as the sequence of its files' contents. The listing order and glob's skipping of hidden files are not modelled.
- The floating-point `eta` and percentage computations (lines 22, 26-27) are left out. This includes two exceptions `write` can raise before any line is written: the division by zero at line 22 when `percent_complete` is 0, and the error `'%d seconds' % eta` raises at line 27 when `eta` is infinite or NaN (a NaN or vanishingly small `percent_complete`). It also includes `%d`'s truncation of a float. `eta` enters the model as the integer `%d` prints, and `complete` as an arbitrary string standing for what `%0.0f%%` produced. The real rendering is a numeral or `inf` followed by `%` (a NaN percentage makes `eta` NaN, so `nan%` never reaches a file), so it never holds `:` or `\n`, and for a name without separators the round trip of SpyProperties.WriteRoundTrip always succeeds in the source.
- Spy.Records: it states the keys and their order only. The values are pinned down by SpyProperties.WriteLayout and SpyProperties.PairsOfRecords.
- `serve` (lines 33-34) refers to a `server` name that `__init__.py` never imports, and `test` (lines 36-47) runs a demo on real files. Neither is part of the codec.
- Python 2's `read()` and `write` work on byte strings. The model's `char`s stand for those bytes; `split` and `strip` behave the same, since both separators and the six whitespace bytes are ASCII. A `unicode` name with non-ASCII characters makes `fd.write` raise an encoding error; that error path is not modelled.
- The web front end in `server.py` and the packaging in `setup.py` are not part of this model.

=== FILE: decimal.dfy ===
/** Python's `'%d' % n` for an integer `n`: the decimal numeral, with a `-`
    in front of a negative number and no leading zeros. The numeral's value
    is given by an independent reading function, and the two are shown to be
    inverse to each other. */
module Decimal {

  predicate IsDigit(c: char) {
    '0' <= c <= '9'
  }

  function DigitValue(c: char): nat
    requires IsDigit(c)
  {
    c as int - '0' as int
  }

  function DigitChar(d: nat): (c: char)
    requires d < 10
    ensures IsDigit(c) && DigitValue(c) == d
  {
    ('0' as int + d) as char
  }

  predicate AllDigits(s: string) {
    forall i :: 0 <= i < |s| ==> IsDigit(s[i])
  }

  /** The number a string of digits denotes, read most significant digit first. */
  function Value(s: string): nat
    requires AllDigits(s)
    decreases |s|
  {
    if |s| == 0 then 0 else 10 * Value(s[..|s| - 1]) + DigitValue(s[|s| - 1])
  }

  /** A non-empty digit string without leading zeros (`0` itself is allowed). */
  predicate IsMagnitude(s: string) {
    |s| >= 1 && AllDigits(s) && (s[0] == '0' ==> |s| == 1)
  }

  /** What `%d` can print: a magnitude, or `-` before a magnitude other than `0`. */
  predicate IsNumeral(s: string) {
    IsMagnitude(s) || (|s| >= 2 && s[0] == '-' && IsMagnitude(s[1..]) && s[1] != '0')
  }

  /** A numeral is made of digits and, in front, possibly a minus sign. */
  lemma NumeralChars(s: string)
    requires IsNumeral(s)
    ensures forall i :: 0 <= i < |s| ==> s[i] == '-' || IsDigit(s[i])
    ensures IsDigit(s[|s| - 1])
  {
    if s[0] == '-' {
      forall i | 1 <= i < |s| ensures IsDigit(s[i]) {
        assert s[i] == s[1..][i - 1];
      }
    }
  }

  /** The integer a numeral denotes. */
  function IntValue(s: string): int
    requires IsNumeral(s)
  {
    if s[0] == '-' then -(Value(s[1..]) as int) else Value(s)
  }

  /** The digits of a natural number. */
  function Digits(n: nat): (r: string)
    ensures IsMagnitude(r) && Value(r) == n
    decreases n
  {
    if n < 10 then [DigitChar(n)]
    else
      var r := Digits(n / 10) + [DigitChar(n % 10)];
      assert r[..|r| - 1] == Digits(n / 10);
      r
  }

  /** `'%d' % n`: always a numeral, and it denotes `n`. */
  function Show(n: int): (r: string)
    ensures IsNumeral(r) && IntValue(r) == n
  {
    if n < 0 then
      var r := "-" + Digits(-n);
      assert r[1..] == Digits(-n);
      r
    else Digits(n)
  }

  /** A magnitude whose first digit is not `0` denotes a positive number. */
  lemma {:induction false} PositiveValue(s: string)
    requires AllDigits(s) && |s| >= 1 && s[0] != '0'
    ensures Value(s) >= 1
    decreases |s|
  {
    if |s| > 1 {
      PositiveValue(s[..|s| - 1]);
    }
  }

  /** Every magnitude is what `Digits` prints for its value. */
  lemma {:induction false} DigitsOfValue(s: string)
    requires IsMagnitude(s)
    ensures Digits(Value(s)) == s
    decreases |s|
  {
    var last := s[|s| - 1];
    if |s| > 1 {
      var front := s[..|s| - 1];
      PositiveValue(front);
      DigitsOfValue(front);
      ShiftDigit(Value(front), DigitValue(last));
      assert DigitChar(DigitValue(last)) == last;
      assert s == front + [last];
    } else {
      assert DigitChar(DigitValue(last)) == last;
    }
  }

  /** Appending digit `d` to the numeral of `v` gives `10 * v + d`, and that
      number's last digit and leading part are `d` and `v` again. */
  lemma ShiftDigit(v: nat, d: nat)
    requires d < 10
    ensures (10 * v + d) / 10 == v && (10 * v + d) % 10 == d
  {
  }

  /** Every numeral is what `Show` prints for its value, so `Show` and
      `IntValue` are mutually inverse between integers and numerals. */
  lemma ShowOfIntValue(s: string)
    requires IsNumeral(s)
    ensures Show(IntValue(s)) == s
  {
    if s[0] == '-' {
      DigitsOfValue(s[1..]);
      PositiveValue(s[1..]);
      assert s == "-" + s[1..];
    } else {
      DigitsOfValue(s);
    }
  }

  /** Distinct integers print as distinct numerals. */
  lemma ShowInjective(a: int, b: int)
    ensures Show(a) == Show(b) <==> a == b
  {
  }
}

=== FILE: spy.dfy ===
/** The status-file codec of `spy`, a monitor for long-running jobs. A job
    reports its progress by calling `write`, which leaves a small text file of
    `key:value` lines in the status directory; `parse_status` reads every file
    there back as a list of records, each record a list of fields. File access
    is abstracted away: a file is the string it contains, and the status
    directory is the sequence of its files' contents. */
module Spy {
  import opened Text
  import Decimal

  /** One `key:value` line of a status file. */
  datatype Record = Record(key: string, value: string)

  /** What `write` is called with, once its floating-point parts are done:
      `name` is the string `%s` prints for the name argument (`str()` of any
      object), `complete` is the percentage as `%0.0f%%` already rendered it,
      and `eta` is the whole number of seconds `%d` prints for the estimate. */
  datatype Status = Status(name: string, time: int, complete: string, eta: int)

  /** The keys of a status file, in the order `write` emits them. */
  const Layout: seq<string> := ["name", "time", "complete", "eta"]

  const SecondsSuffix: string := " seconds"

  /** `'%d seconds' % n`: the numeral of `n`, then ` seconds`. It holds neither
      field nor record separator and has no whitespace at either end. */
  function Seconds(n: int): (r: string)
    ensures |r| > |SecondsSuffix| && r[|r| - |SecondsSuffix|..] == SecondsSuffix
    ensures Decimal.IsNumeral(r[..|r| - |SecondsSuffix|])
    ensures Decimal.IntValue(r[..|r| - |SecondsSuffix|]) == n
    ensures ':' !in r && '\n' !in r
    ensures !IsSpace(r[0]) && !IsSpace(r[|r| - 1])
  {
    var d := Decimal.Show(n);
    Decimal.NumeralChars(d);
    SuffixedNumeral(d);
    d + SecondsSuffix
  }

  /** A numeral followed by ` seconds` keeps both parts apart and holds no
      separator. */
  lemma SuffixedNumeral(d: string)
    requires |d| >= 1
    requires forall i :: 0 <= i < |d| ==> d[i] == '-' || Decimal.IsDigit(d[i])
    ensures (d + SecondsSuffix)[..|d|] == d && (d + SecondsSuffix)[|d|..] == SecondsSuffix
    ensures ':' !in d + SecondsSuffix && '\n' !in d + SecondsSuffix
    ensures (d + SecondsSuffix)[0] == d[0]
  {
    var r := d + SecondsSuffix;
    forall i | 0 <= i < |r| ensures r[i] != ':' && r[i] != '\n' {
      if i < |d| { assert r[i] == d[i]; } else { assert r[i] == SecondsSuffix[i - |d|]; }
    }
  }

  /** The `_format` tuple of `write`: four records, one per key of `Layout`. */
  function Records(s: Status): (rs: seq<Record>)
    ensures |rs| == |Layout|
    ensures forall i :: 0 <= i < |rs| ==> rs[i].key == Layout[i]
  {
    [ Record(Layout[0], s.name),
      Record(Layout[1], Seconds(s.time)),
      Record(Layout[2], s.complete),
      Record(Layout[3], Seconds(s.eta)) ]
  }

  /** A record's text without its line end: key, `:`, value. */
  function Body(r: Record): string {
    r.key + ":" + r.value
  }

  /** `'%s:%s\n' % (key, value)`, the line `write_line` emits for a record. */
  function Line(r: Record): string {
    Body(r) + "\n"
  }

  /** The lines of `rs`, in order, with nothing between or around them. */
  function Render(rs: seq<Record>): string
    decreases |rs|
  {
    if |rs| == 0 then "" else Line(rs[0]) + Render(rs[1..])
  }

  /** What `any(imap(partial(write_line, fd), rs))` leaves in the file: the
      lines are written in order until one `fd.write` call returns a truthy
      value, after which `any` stops. `returned(line)` is the truthiness of
      what writing `line` returned. The text written is always a prefix of the
      full rendering, and all of it when no write returns a truthy value. */
  function Written(rs: seq<Record>, returned: string -> bool): (out: string)
    ensures |out| <= |Render(rs)| && out == Render(rs)[..|out|]
    ensures (forall i :: 0 <= i < |rs| ==> !returned(Line(rs[i]))) ==> out == Render(rs)
    decreases |rs|
  {
    if |rs| == 0 then ""
    else if returned(Line(rs[0])) then Line(rs[0])
    else
      var tail := Written(rs[1..], returned);
      assert forall i :: 0 <= i < |rs| - 1 ==> rs[1..][i] == rs[i + 1];
      Line(rs[0]) + tail
  }

  /** When the write of line `j` is the first to return a truthy value, the
      file holds exactly lines `0` to `j`. */
  lemma {:induction false} WrittenStops(rs: seq<Record>, returned: string -> bool, j: int)
    requires 0 <= j < |rs| && returned(Line(rs[j]))
    requires forall i :: 0 <= i < j ==> !returned(Line(rs[i]))
    ensures Written(rs, returned) == Render(rs[..j + 1])
    decreases j
  {
    if j == 0 {
      assert rs[..1] == [rs[0]];
      assert Render([rs[0]]) == Line(rs[0]) + Render([]);
    } else {
      var rest := rs[1..];
      assert !returned(Line(rs[0])) && rest[j - 1] == rs[j];
      assert forall i :: 0 <= i < j - 1 ==> rest[i] == rs[i + 1];
      WrittenStops(rest, returned, j - 1);
      RenderFront(rs, j);
    }
  }

  /** The first `j + 1` lines are the first line followed by the next `j`. */
  lemma RenderFront(rs: seq<Record>, j: int)
    requires 0 <= j < |rs|
    ensures Render(rs[..j + 1]) == Line(rs[0]) + Render(rs[1..][..j])
  {
    assert rs[..j + 1][1..] == rs[1..][..j];
  }

  /** Python 2's `file.write` returns `None`, which is falsy. */
  predicate FileWriteReturned(line: string) {
    false
  }

  /** `write(fd, name, time, percent_complete)`: the text the status file holds
      afterwards. Since no write returns a truthy value, every record is
      written. */
  function Write(s: Status): (text: string)
    ensures text == Render(Records(s))
  {
    Written(Records(s), FileWriteReturned)
  }

  /** The `parse_file` lambda of `parse_status` applied to a file's contents:
      strip the text, split it into lines on `\n`, split each line on every
      `:`. There is one row per newline of the stripped text plus one, each row
      has one field per `:` of its line plus one, and no field holds either
      separator. */
  function ParseFile(text: string): (rows: seq<seq<string>>)
    ensures |rows| == Count(Strip(text), '\n') + 1
    ensures forall i :: 0 <= i < |rows| ==> |rows[i]| == Count(Split(Strip(text), '\n')[i], ':') + 1
    ensures forall i, j :: 0 <= i < |rows| && 0 <= j < |rows[i]| ==> ':' !in rows[i][j] && '\n' !in rows[i][j]
  {
    var lines := Split(Strip(text), '\n');
    forall i | 0 <= i < |lines| {
      SplitAbsent(lines[i], ':', '\n');
    }
    seq(|lines|, i requires 0 <= i < |lines| => Split(lines[i], ':'))
  }

  /** `parse_status` with the directory listing given as the files' contents,
      in listing order: entry `k` is the parse of file `k`, so there is one
      parsed file per entry, in order, and none of them is empty. */
  function ParseStatus(files: seq<string>): (parsed: seq<seq<seq<string>>>)
    ensures |parsed| == |files|
    ensures forall k :: 0 <= k < |parsed| ==> parsed[k] == ParseFile(files[k])
    ensures forall k :: 0 <= k < |parsed| ==> |parsed[k]| >= 1
  {
    seq(|files|, k requires 0 <= k < |files| => ParseFile(files[k]))
  }
}

=== FILE: spy_properties.dfy ===
/** What the status-file format guarantees: how `write`'s output is laid out,
    what `parse_file` keeps and loses, and exactly when parsing gives back the
    records that were written. */
module SpyProperties {
  import opened Text
  import opened Spy

  /** A field that holds neither the field separator nor the line separator. */
  predicate NoBreak(x: string) {
    ':' !in x && '\n' !in x
  }

  /** No key or value of the list holds a separator. */
  predicate Clean(rs: seq<Record>) {
    forall i :: 0 <= i < |rs| ==> NoBreak(rs[i].key) && NoBreak(rs[i].value)
  }

  /** No key or value of the list holds a line end. */
  predicate NewlineFree(rs: seq<Record>) {
    forall i :: 0 <= i < |rs| ==> '\n' !in rs[i].key && '\n' !in rs[i].value
  }

  /** `strip` can only eat into the first key and the last value: a non-empty
      record list whose first key does not start, and whose last value does
      not end, with whitespace keeps everything but the final line end. */
  predicate StripSafe(rs: seq<Record>) {
    && |rs| >= 1
    && (rs[0].key == [] || !IsSpace(rs[0].key[0]))
    && (rs[|rs| - 1].value == [] || !IsSpace(rs[|rs| - 1].value[|rs[|rs| - 1].value| - 1]))
  }

  /** The line bodies of a record list. */
  function Bodies(rs: seq<Record>): (bs: seq<string>)
    ensures |bs| == |rs|
  {
    seq(|rs|, i requires 0 <= i < |rs| => Body(rs[i]))
  }

  /** The rows a faithful parser would return: each record as `[key, value]`. */
  function Pairs(rs: seq<Record>): (rows: seq<seq<string>>)
    ensures |rows| == |rs|
  {
    seq(|rs|, i requires 0 <= i < |rs| => [rs[i].key, rs[i].value])
  }

  /** Each record's line body split on every `:`. */
  function SplitBodies(rs: seq<Record>): (rows: seq<seq<string>>)
    ensures |rows| == |rs|
  {
    seq(|rs|, i requires 0 <= i < |rs| => Split(Body(rs[i]), ':'))
  }

  /** Rows put back together: fields joined by `:`, rows joined by `\n`. */
  function Unparse(rows: seq<seq<string>>): string {
    Join(seq(|rows|, i requires 0 <= i < |rows| => Join(rows[i], ':')), '\n')
  }

  // ---------------------------------------------------------------- write

  /** A rendering is the concatenation of its parts' renderings. */
  lemma {:induction false} RenderAppend(a: seq<Record>, b: seq<Record>)
    ensures Render(a + b) == Render(a) + Render(b)
    decreases |a|
  {
    if |a| > 0 {
      assert (a + b)[0] == a[0];
      assert (a + b)[1..] == a[1..] + b;
      RenderAppend(a[1..], b);
      assert Render(a + b) == Line(a[0]) + Render(a[1..] + b);
      assert Line(a[0]) + (Render(a[1..]) + Render(b)) == (Line(a[0]) + Render(a[1..])) + Render(b);
    } else {
      assert a + b == b;
    }
  }

  /** Each record is written as key, `:`, value, `\n`, and the file is the
      line bodies joined by `\n` plus one final `\n`: nothing else is added. */
  lemma {:induction false} RenderAsJoin(rs: seq<Record>)
    requires |rs| >= 1
    ensures Render(rs) == Join(Bodies(rs), '\n') + "\n"
    decreases |rs|
  {
    if |rs| > 1 {
      RenderAsJoin(rs[1..]);
      assert Bodies(rs)[1..] == Bodies(rs[1..]);
    }
  }

  /** A single record renders as its own line. */
  lemma RenderOne(r: Record)
    ensures Render([r]) == Line(r)
  {
    assert [r][1..] == [];
  }

  /** The text of a status file is the four lines for `name`, `time`,
      `complete` and `eta`, in this order, and nothing else. */
  lemma WriteLayout(s: Status)
    ensures Write(s) ==
      Line(Record("name", s.name)) +
      Line(Record("time", Seconds(s.time))) +
      Line(Record("complete", s.complete)) +
      Line(Record("eta", Seconds(s.eta)))
  {
    RenderFour(Record("name", s.name), Record("time", Seconds(s.time)),
               Record("complete", s.complete), Record("eta", Seconds(s.eta)));
  }

  /** Four records render as their four lines, in order. */
  lemma RenderFour(a: Record, b: Record, c: Record, d: Record)
    ensures Render([a, b, c, d]) == Line(a) + Line(b) + Line(c) + Line(d)
  {
    assert [a, b, c, d][1..] == [b, c, d];
    assert [b, c, d][1..] == [c, d];
    assert [c, d][1..] == [d];
    RenderOne(d);
    var la, lb, lc, ld := Line(a), Line(b), Line(c), Line(d);
    assert Render([c, d]) == lc + ld;
    assert Render([b, c, d]) == lb + (lc + ld);
    assert Render([a, b, c, d]) == la + (lb + (lc + ld));
    assert la + (lb + (lc + ld)) == la + lb + lc + ld;
  }

  // ---------------------------------------------------------------- parse

  /** `parse_file` once the stripped text is known to consist of `lines`. */
  lemma ParseFileOfLines(text: string, lines: seq<string>)
    requires Split(Strip(text), '\n') == lines
    ensures ParseFile(text) == seq(|lines|, i requires 0 <= i < |lines| => Split(lines[i], ':'))
  {
  }

  /** Parsing loses nothing but the surrounding whitespace: putting the rows
      back together gives the stripped text. */
  lemma ParseFileLossless(text: string)
    ensures Unparse(ParseFile(text)) == Strip(text)
  {
    var lines := Split(Strip(text), '\n');
    var rows := ParseFile(text);
    var joined := seq(|rows|, i requires 0 <= i < |rows| => Join(rows[i], ':'));
    forall i | 0 <= i < |lines| ensures joined[i] == lines[i] {
      JoinSplit(lines[i], ':');
    }
    assert joined == lines;
    JoinSplit(Strip(text), '\n');
  }

  /** Empty or all-whitespace text, and only such text, parses to a single
      record holding a single empty field; parsing never returns no records. */
  lemma ParseEmpty(text: string)
    ensures ParseFile(text) == [[""]] <==> AllSpace(text)
  {
    if AllSpace(text) {
      SplitNoSeparator("", '\n');
      SplitNoSeparator("", ':');
      ParseFileOfLines(text, [""]);
    }
    if ParseFile(text) == [[""]] {
      ParseFileLossless(text);
      assert Unparse([[""]]) == "";
    }
  }

  /** A trailing `\n` and any other whitespace around the text are removed
      before splitting, so they never produce an extra, empty record. */
  lemma ParseIgnoresSurroundingSpace(pre: string, text: string, post: string)
    requires AllSpace(pre) && AllSpace(post)
    ensures ParseFile(pre + text + post) == ParseFile(text)
  {
    StripAround(pre, text, post);
  }

  /** Each file is parsed on its own: the parse of a listing is the parse of
      its first part followed by that of the rest, so files never influence
      each other and their order is kept. */
  lemma ParseStatusAppend(a: seq<string>, b: seq<string>)
    ensures ParseStatus(a + b) == ParseStatus(a) + ParseStatus(b)
  {
    var ab := a + b;
    forall k | 0 <= k < |ab| ensures ParseStatus(ab)[k] == (ParseStatus(a) + ParseStatus(b))[k] {
      if k < |a| {
        assert ab[k] == a[k];
        assert (ParseStatus(a) + ParseStatus(b))[k] == ParseStatus(a)[k];
      } else {
        assert ab[k] == b[k - |a|];
        assert (ParseStatus(a) + ParseStatus(b))[k] == ParseStatus(b)[k - |a|];
      }
    }
  }

  // ------------------------------------------------------------ round trip

  /** The first character of a join is that of its first part. */
  lemma JoinFirst(parts: seq<string>, sep: char)
    requires |parts| >= 1 && |parts[0]| >= 1
    ensures |Join(parts, sep)| >= 1 && Join(parts, sep)[0] == parts[0][0]
  {
  }

  /** The last character of a join is that of its last part. */
  lemma JoinFinal(parts: seq<string>, sep: char)
    requires |parts| >= 1 && |parts[|parts| - 1]| >= 1
    ensures |Join(parts, sep)| >= 1
    ensures Join(parts, sep)[|Join(parts, sep)| - 1] == parts[|parts| - 1][|parts[|parts| - 1]| - 1]
  {
    if |parts| >= 2 {
      JoinLast(parts, sep);
    }
  }

  /** Under safe ends, the line bodies joined by `\n` have no whitespace at
      either end. */
  lemma BodiesTrimmed(rs: seq<Record>)
    requires StripSafe(rs)
    ensures Trimmed(Join(Bodies(rs), '\n'))
  {
    var bs := Bodies(rs);
    var first := rs[0];
    var last := rs[|rs| - 1];
    assert bs[0] == first.key + ":" + first.value;
    assert bs[|bs| - 1] == last.key + ":" + last.value;
    JoinFirst(bs, '\n');
    JoinFinal(bs, '\n');
  }

  /** Stripping a rendering removes the final line end and nothing else. */
  lemma StripRendered(rs: seq<Record>)
    requires StripSafe(rs)
    ensures Strip(Render(rs)) == Join(Bodies(rs), '\n')
  {
    var j := Join(Bodies(rs), '\n');
    RenderAsJoin(rs);
    BodiesTrimmed(rs);
    assert "" + j + "\n" == j + "\n";
    StripFrame("", j, "\n");
  }

  /** When no field holds a line end and the ends are safe, each written
      record comes back as its line body split on every `:`. */
  lemma ParseRendered(rs: seq<Record>)
    requires StripSafe(rs)
    requires NewlineFree(rs)
    ensures ParseFile(Render(rs)) == SplitBodies(rs)
  {
    StripRendered(rs);
    var bs := Bodies(rs);
    forall i | 0 <= i < |bs| ensures '\n' !in bs[i] {
      assert bs[i] == rs[i].key + ":" + rs[i].value;
    }
    SplitJoin(bs, '\n');
    ParseFileOfLines(Render(rs), bs);
  }

  /** A body whose key and value hold no `:` splits into exactly key and value. */
  lemma SplitBody(r: Record)
    requires ':' !in r.key && ':' !in r.value
    ensures Split(Body(r), ':') == [r.key, r.value]
  {
    assert Body(r) == r.key + [':'] + r.value;
    SplitAround(r.key, ':', r.value);
    SplitNoSeparator(r.key, ':');
    SplitNoSeparator(r.value, ':');
  }

  /** A field holding the field separator splits into further fields: its
      record parses into more than two fields, so not into `[key, value]`. */
  lemma ColonInField(rs: seq<Record>, i: int)
    requires StripSafe(rs)
    requires NewlineFree(rs)
    requires 0 <= i < |rs| && (':' in rs[i].key || ':' in rs[i].value)
    ensures |ParseFile(Render(rs))| == |rs| && |ParseFile(Render(rs))[i]| > 2
  {
    ParseRendered(rs);
    BodyCount(rs[i], ':');
    CountZero(rs[i].key, ':');
    CountZero(rs[i].value, ':');
  }

  /** A body holds the separators of its key and value, and one more `:`. */
  lemma BodyCount(r: Record, c: char)
    ensures Count(Body(r), c) == Count(r.key, c) + Count(r.value, c) + (if c == ':' then 1 else 0)
  {
    CountAppend(r.key + ":", r.value, c);
    CountAppend(r.key, ":", c);
  }

  /** A line end inside a record's key or value splits that record into
      several: parsing then yields more records than were written. */
  lemma NewlineInField(rs: seq<Record>, i: int)
    requires StripSafe(rs)
    requires 0 <= i < |rs| && '\n' in Body(rs[i])
    ensures |ParseFile(Render(rs))| > |rs|
  {
    StripRendered(rs);
    assert Bodies(rs)[i] == Body(rs[i]);
    CountZero(Body(rs[i]), '\n');
    JoinCount(Bodies(rs), '\n');
    SumCountPart(Bodies(rs), '\n', i);
  }

  /** Bodies free of separators split into exactly `[key, value]`. */
  lemma CleanSplitBodies(rs: seq<Record>)
    requires Clean(rs)
    ensures SplitBodies(rs) == Pairs(rs)
  {
    forall i | 0 <= i < |rs| ensures SplitBodies(rs)[i] == Pairs(rs)[i] {
      SplitBody(rs[i]);
    }
  }

  /** The "if" half of `RoundTrip`. */
  lemma RoundTripClean(rs: seq<Record>)
    requires StripSafe(rs)
    requires Clean(rs)
    ensures ParseFile(Render(rs)) == Pairs(rs)
  {
    ParseRendered(rs);
    CleanSplitBodies(rs);
  }

  /** The "only if" half of `RoundTrip`, for every record list: no parsed
      field holds a separator, so rows equal to the pairs leave none in any
      key or value. */
  lemma RoundTripOnlyIf(rs: seq<Record>)
    ensures ParseFile(Render(rs)) == Pairs(rs) ==> Clean(rs)
  {
    var rows := ParseFile(Render(rs));
    if rows == Pairs(rs) {
      forall i | 0 <= i < |rs|
        ensures NoBreak(rs[i].key) && NoBreak(rs[i].value)
      {
        assert rows[i] == [rs[i].key, rs[i].value];
        assert rows[i][0] == rs[i].key && rows[i][1] == rs[i].value;
      }
    }
  }

  /** Round trip: for a record list whose ends `strip` cannot touch, parsing
      the written text gives back exactly `[[k1, v1], …, [kn, vn]]`, in the
      original order, if and only if no key or value holds `:` or `\n`. */
  lemma RoundTrip(rs: seq<Record>)
    requires StripSafe(rs)
    ensures ParseFile(Render(rs)) == Pairs(rs) <==> Clean(rs)
  {
    RoundTripOnlyIf(rs);
    if Clean(rs) {
      RoundTripClean(rs);
    }
  }

  /** The rows a faithful parser would return for a status file. */
  lemma PairsOfRecords(s: Status)
    ensures Pairs(Records(s)) ==
      [["name", s.name], ["time", Seconds(s.time)], ["complete", s.complete], ["eta", Seconds(s.eta)]]
  {
  }

  /** Of a status file's fields, only the name and the percentage string
      (taken here as an arbitrary string) can hold a separator. */
  lemma BreaksOfRecords(s: Status)
    ensures Clean(Records(s)) <==> NoBreak(s.name) && NoBreak(s.complete)
  {
    var rs := Records(s);
    LayoutClean();
    CleanFour(rs[0], rs[1], rs[2], rs[3]);
    assert rs == [rs[0], rs[1], rs[2], rs[3]];
  }

  /** No key of the layout holds a separator. */
  lemma LayoutClean()
    ensures forall i :: 0 <= i < |Layout| ==> NoBreak(Layout[i])
  {
    assert NoBreak("name") && NoBreak("time") && NoBreak("complete") && NoBreak("eta");
  }

  /** A list of four records is clean exactly when each of its records is. */
  lemma CleanFour(a: Record, b: Record, c: Record, d: Record)
    ensures Clean([a, b, c, d]) <==>
      && NoBreak(a.key) && NoBreak(a.value) && NoBreak(b.key) && NoBreak(b.value)
      && NoBreak(c.key) && NoBreak(c.value) && NoBreak(d.key) && NoBreak(d.value)
  {
    var rs := [a, b, c, d];
    assert rs[0] == a && rs[1] == b && rs[2] == c && rs[3] == d;
  }

  /** A status file parses back into its four `[key, value]` rows in layout
      order if and only if neither the job name nor the percentage string
      (taken here as an arbitrary string) holds `:` or `\n`; the two
      `seconds` values never do. */
  lemma WriteRoundTrip(s: Status)
    ensures ParseFile(Write(s)) ==
      [["name", s.name], ["time", Seconds(s.time)], ["complete", s.complete], ["eta", Seconds(s.eta)]]
      <==> NoBreak(s.name) && NoBreak(s.complete)
  {
    var rs := Records(s);
    assert StripSafe(rs);
    RoundTrip(rs);
    PairsOfRecords(s);
    BreaksOfRecords(s);
  }

  /** A single record with safe ends and no line end comes back as one row,
      its body split on every `:`. */
  lemma ParseOne(r: Record)
    requires StripSafe([r])
    requires '\n' !in r.key && '\n' !in r.value
    ensures ParseFile(Render([r])) == [Split(Body(r), ':')]
  {
    ParseRendered([r]);
    assert SplitBodies([r]) == [Split(Body(r), ':')];
  }

  /** A key and a value `a:b` split into the three fields. */
  lemma SplitThree(k: string, a: string, b: string)
    requires ':' !in k && ':' !in a && ':' !in b
    ensures Split(Body(Record(k, a + ":" + b)), ':') == [k, a, b]
  {
    assert Body(Record(k, a + ":" + b)) == k + [':'] + (a + [':'] + b);
    SplitAround(k, ':', a + [':'] + b);
    SplitAround(a, ':', b);
    SplitNoSeparator(k, ':');
    SplitNoSeparator(a, ':');
    SplitNoSeparator(b, ':');
  }

  /** In a one-record file, a value with a `:` in it, such as a clock-style
      duration `a:b`, does not round-trip: its record comes back as three
      fields. */
  lemma ColonInValue(k: string, a: string, b: string)
    requires NoBreak(k) && NoBreak(a) && NoBreak(b)
    requires StripSafe([Record(k, a + ":" + b)])
    ensures ParseFile(Render([Record(k, a + ":" + b)])) == [[k, a, b]]
  {
    ParseOne(Record(k, a + ":" + b));
    SplitThree(k, a, b);
  }

  /** `parse_file` sees a file only through its stripped text. */
  lemma ParseFileOfStrip(t1: string, t2: string)
    requires Strip(t1) == Strip(t2)
    ensures ParseFile(t1) == ParseFile(t2)
  {
  }

  /** The line of a record whose value is padded by `w`. */
  lemma PaddedLine(k: string, v: string, w: string)
    ensures Line(Record(k, v + w)) == "" + Body(Record(k, v)) + (w + "\n")
  {
  }

  /** The body of a single record, joined on its own. */
  lemma BodiesOne(r: Record)
    ensures Join(Bodies([r]), '\n') == Body(r)
  {
    assert Bodies([r]) == [Body(r)];
  }

  /** Padding the last value with whitespace changes nothing after `strip`. */
  lemma StripPadded(k: string, v: string, w: string)
    requires StripSafe([Record(k, v)])
    requires AllSpace(w)
    ensures Strip(Render([Record(k, v + w)])) == Strip(Render([Record(k, v)]))
  {
    var r := Record(k, v);
    RenderOne(Record(k, v + w));
    PaddedLine(k, v, w);
    AllSpaceAppend(w, "\n");
    BodiesTrimmed([r]);
    BodiesOne(r);
    StripFrame("", Body(r), w + "\n");
    StripRendered([r]);
  }

  /** In a one-record file, trailing whitespace on the value is lost to
      `strip`, which is why the round trip asks for safe ends. */
  lemma TrailingSpaceLost(k: string, v: string, w: string)
    requires NoBreak(k) && NoBreak(v)
    requires StripSafe([Record(k, v)])
    requires AllSpace(w)
    ensures ParseFile(Render([Record(k, v + w)])) == [[k, v]]
  {
    StripPadded(k, v, w);
    ParseFileOfStrip(Render([Record(k, v + w)]), Render([Record(k, v)]));
    RoundTripOne(Record(k, v));
  }

  /** A single clean record with safe ends round-trips. */
  lemma RoundTripOne(r: Record)
    requires NoBreak(r.key) && NoBreak(r.value)
    requires StripSafe([r])
    ensures ParseFile(Render([r])) == [[r.key, r.value]]
  {
    RoundTripClean([r]);
    assert Pairs([r]) == [[r.key, r.value]];
  }
}

=== FILE: text.dfy ===
/** The two Python 2 `str` operations the status-file parser is built from,
    `s.split(sep)` with a one-character separator and `s.strip()` with no
    argument, together with `sep.join(parts)`: the reference definition that
    the split and render lemmas are stated against. */
module Text {

  /** The characters Python 2's `str.strip()` removes: space, tab, newline,
      carriage return, vertical tab and form feed. */
  predicate IsSpace(c: char) {
    c == ' ' || c == '\t' || c == '\n' || c == '\r' || c == '\U{000B}' || c == '\U{000C}'
  }

  /** Number of occurrences of `c` in `s` (`s.count(c)`). */
  function Count(s: string, c: char): nat
    decreases |s|
  {
    if |s| == 0 then 0 else (if s[0] == c then 1 else 0) + Count(s[1..], c)
  }

  /** A character occurs in a string exactly when it is counted there. */
  lemma {:induction false} CountZero(s: string, c: char)
    ensures Count(s, c) == 0 <==> c !in s
    decreases |s|
  {
    if |s| > 0 {
      CountZero(s[1..], c);
      assert s == [s[0]] + s[1..];
    }
  }

  /** Counting is additive over concatenation. */
  lemma {:induction false} CountAppend(a: string, b: string, c: char)
    ensures Count(a + b, c) == Count(a, c) + Count(b, c)
    decreases |a|
  {
    if |a| > 0 {
      assert (a + b)[0] == a[0] && (a + b)[1..] == a[1..] + b;
      CountAppend(a[1..], b, c);
    } else {
      assert a + b == b;
    }
  }

  /** `sep.join(parts)`: the parts in order, one separator between neighbours. */
  function Join(parts: seq<string>, sep: char): string
    decreases |parts|
  {
    if |parts| == 0 then ""
    else if |parts| == 1 then parts[0]
    else parts[0] + [sep] + Join(parts[1..], sep)
  }

  /** The number of occurrences of `c` over all of `parts`. */
  function SumCount(parts: seq<string>, c: char): nat
    decreases |parts|
  {
    if |parts| == 0 then 0 else Count(parts[0], c) + SumCount(parts[1..], c)
  }

  /** A join holds exactly the separators of its parts plus the ones it puts
      between them. */
  lemma {:induction false} JoinCount(parts: seq<string>, sep: char)
    requires |parts| >= 1
    ensures Count(Join(parts, sep), sep) == |parts| - 1 + SumCount(parts, sep)
    decreases |parts|
  {
    if |parts| > 1 {
      var rest := parts[1..];
      CountAppend(parts[0] + [sep], Join(rest, sep), sep);
      CountAppend(parts[0], [sep], sep);
      JoinCount(rest, sep);
    }
  }

  /** Each part contributes its own occurrences to the total. */
  lemma {:induction false} SumCountPart(parts: seq<string>, c: char, i: int)
    requires 0 <= i < |parts|
    ensures SumCount(parts, c) >= Count(parts[i], c)
    decreases |parts|
  {
    if i > 0 {
      SumCountPart(parts[1..], c, i - 1);
    }
  }

  /** `s.split(sep)`: the maximal separator-free pieces between separators.
      There is always one more piece than there are separators, so the empty
      string splits into one empty piece. */
  function Split(s: string, sep: char): (parts: seq<string>)
    ensures |parts| == Count(s, sep) + 1
    ensures forall i :: 0 <= i < |parts| ==> sep !in parts[i]
    decreases |s|
  {
    if |s| == 0 then [""]
    else
      var rest := Split(s[1..], sep);
      assert s == [s[0]] + s[1..];
      if s[0] == sep then [""] + rest
      else [[s[0]] + rest[0]] + rest[1..]
  }

  /** A character absent from a string is absent from each of its pieces. */
  lemma {:induction false} SplitAbsent(s: string, sep: char, c: char)
    requires c !in s
    ensures forall i :: 0 <= i < |Split(s, sep)| ==> c !in Split(s, sep)[i]
    decreases |s|
  {
    if |s| > 0 {
      SplitAbsent(s[1..], sep, c);
      SplitCons(s[0], s[1..], sep);
      assert s == [s[0]] + s[1..];
    }
  }

  /** Splitting a string that starts with `c`: a separator opens a new empty
      piece, any other character joins the first piece. */
  lemma SplitCons(c: char, t: string, sep: char)
    ensures Split([c] + t, sep) ==
      if c == sep then [""] + Split(t, sep)
      else [[c] + Split(t, sep)[0]] + Split(t, sep)[1..]
  {
    assert ([c] + t)[0] == c && ([c] + t)[1..] == t;
  }

  /** `join` undoes `split`: splitting loses nothing but the separators. */
  lemma {:induction false} JoinSplit(s: string, sep: char)
    ensures Join(Split(s, sep), sep) == s
    decreases |s|
  {
    if |s| > 0 {
      var rest := Split(s[1..], sep);
      JoinSplit(s[1..], sep);
      SplitCons(s[0], s[1..], sep);
      assert s == [s[0]] + s[1..];
      if s[0] == sep {
        assert ([""] + rest)[1..] == rest;
      } else {
        JoinExtendFirst(s[0], rest, sep);
      }
    }
  }

  /** Putting a character in front of the first part puts it in front of the join. */
  lemma JoinExtendFirst(c: char, parts: seq<string>, sep: char)
    requires |parts| >= 1
    ensures Join([[c] + parts[0]] + parts[1..], sep) == [c] + Join(parts, sep)
  {
    var q := [[c] + parts[0]] + parts[1..];
    assert q[0] == [c] + parts[0] && q[1..] == parts[1..];
    if |parts| > 1 {
      assert ([c] + parts[0]) + [sep] + Join(parts[1..], sep) == [c] + (parts[0] + [sep] + Join(parts[1..], sep));
    }
  }

  /** A separator-free string is a single piece. */
  lemma {:induction false} SplitNoSeparator(s: string, sep: char)
    requires sep !in s
    ensures Split(s, sep) == [s]
  {
    CountZero(s, sep);
    JoinSplit(s, sep);
  }

  /** Splitting distributes over a separator: the pieces of `a`, then those of `b`. */
  lemma {:induction false} SplitAround(a: string, sep: char, b: string)
    ensures Split(a + [sep] + b, sep) == Split(a, sep) + Split(b, sep)
    decreases |a|
  {
    if |a| == 0 {
      assert a + [sep] + b == [sep] + b;
      SplitCons(sep, b, sep);
    } else {
      SplitAround(a[1..], sep, b);
      SplitAroundStep(a, sep, b);
    }
  }

  /** The inductive step of `SplitAround`, for a non-empty `a`. */
  lemma SplitAroundStep(a: string, sep: char, b: string)
    requires |a| > 0
    requires Split(a[1..] + [sep] + b, sep) == Split(a[1..], sep) + Split(b, sep)
    ensures Split(a + [sep] + b, sep) == Split(a, sep) + Split(b, sep)
  {
    var t := a[1..] + [sep] + b;
    PeelAround(a, sep, b);
    HeadTail(a);
    SplitCons(a[0], t, sep);
    SplitCons(a[0], a[1..], sep);
    if a[0] == sep {
      PrependAssoc("", Split(a[1..], sep), Split(b, sep));
    } else {
      HeadAppend([a[0]], Split(a[1..], sep), Split(b, sep));
    }
  }

  /** Taking the first character off the front of `a + [sep] + b`. */
  lemma PeelAround(a: string, sep: char, b: string)
    requires |a| > 0
    ensures a + [sep] + b == [a[0]] + (a[1..] + [sep] + b)
  {
  }

  /** Opening a new first piece before `y + z` is opening it before `y`. */
  lemma PrependAssoc(c: string, y: seq<string>, z: seq<string>)
    ensures [c] + (y + z) == ([c] + y) + z
  {
  }

  /** Extending the first piece of `y + z` is extending the first piece of `y`. */
  lemma HeadAppend(c: string, y: seq<string>, z: seq<string>)
    requires |y| > 0
    ensures [c + (y + z)[0]] + (y + z)[1..] == ([c + y[0]] + y[1..]) + z
  {
    assert (y + z)[0] == y[0];
    assert (y + z)[1..] == y[1..] + z;
  }

  /** `split` undoes `join` when no part contains the separator. */
  lemma {:induction false} SplitJoin(parts: seq<string>, sep: char)
    requires |parts| >= 1
    requires forall i :: 0 <= i < |parts| ==> sep !in parts[i]
    ensures Split(Join(parts, sep), sep) == parts
    decreases |parts|
  {
    if |parts| == 1 {
      SplitNoSeparator(parts[0], sep);
    } else {
      SplitNoSeparator(parts[0], sep);
      SplitAround(parts[0], sep, Join(parts[1..], sep));
      SplitJoin(parts[1..], sep);
      assert parts == [parts[0]] + parts[1..];
    }
  }

  /** The join of several parts ends with the last part, after a separator. */
  lemma {:induction false} JoinLast(parts: seq<string>, sep: char)
    requires |parts| >= 2
    ensures Join(parts, sep) == Join(parts[..|parts| - 1], sep) + [sep] + parts[|parts| - 1]
    decreases |parts|
  {
    if |parts| == 2 {
      assert parts[..1] == [parts[0]];
    } else {
      JoinLast(parts[1..], sep);
      assert parts[1..][..|parts| - 2] == parts[..|parts| - 1][1..];
    }
  }

  /** Nothing but whitespace. */
  predicate AllSpace(s: string) {
    forall i :: 0 <= i < |s| ==> IsSpace(s[i])
  }

  /** No whitespace at either end. */
  predicate Trimmed(s: string) {
    s == [] || (!IsSpace(s[0]) && !IsSpace(s[|s| - 1]))
  }

  lemma AllSpaceAppend(a: string, b: string)
    ensures AllSpace(a + b) <==> AllSpace(a) && AllSpace(b)
  {
    if AllSpace(a) && AllSpace(b) {
      forall i | 0 <= i < |a + b| ensures IsSpace((a + b)[i]) {
        if i < |a| { assert (a + b)[i] == a[i]; } else { assert (a + b)[i] == b[i - |a|]; }
      }
    }
    if AllSpace(a + b) {
      forall i | 0 <= i < |a| ensures IsSpace(a[i]) { assert (a + b)[i] == a[i]; }
      forall i | 0 <= i < |b| ensures IsSpace(b[i]) { assert (a + b)[|a| + i] == b[i]; }
    }
  }

  /** A string is its first character followed by the rest. */
  lemma HeadTail(s: string)
    requires |s| > 0
    ensures s == [s[0]] + s[1..]
  {
  }

  /** A string is its front followed by its last character. */
  lemma FrontLast(s: string)
    requires |s| > 0
    ensures s == s[..|s| - 1] + [s[|s| - 1]]
  {
  }

  /** `s.lstrip()`. */
  function StripLeft(s: string): string
    decreases |s|
  {
    if |s| > 0 && IsSpace(s[0]) then StripLeft(s[1..]) else s
  }

  /** `lstrip` drops the leading whitespace and nothing else: what it returns
      is a suffix of `s` that does not start with whitespace, and all it cut
      off is whitespace. */
  lemma {:induction false} StripLeftSpec(s: string)
    ensures |StripLeft(s)| <= |s| && StripLeft(s) == s[|s| - |StripLeft(s)|..]
    ensures AllSpace(s[..|s| - |StripLeft(s)|])
    ensures StripLeft(s) == [] || !IsSpace(StripLeft(s)[0])
    decreases |s|
  {
    if |s| > 0 && IsSpace(s[0]) {
      var t := s[1..];
      StripLeftSpec(t);
      var r := StripLeft(t);
      assert StripLeft(s) == r;
      assert s[|s| - |r|..] == t[|t| - |r|..];
      assert s[..|s| - |r|] == [s[0]] + t[..|t| - |r|];
      AllSpaceAppend([s[0]], t[..|t| - |r|]);
    } else {
      assert s[..0] == [];
    }
  }

  /** `s.rstrip()`. */
  function StripRight(s: string): string
    decreases |s|
  {
    if |s| > 0 && IsSpace(s[|s| - 1]) then StripRight(s[..|s| - 1]) else s
  }

  /** `rstrip` drops the trailing whitespace and nothing else: what it returns
      is a prefix of `s` that does not end with whitespace, and all it cut
      off is whitespace. */
  lemma {:induction false} StripRightSpec(s: string)
    ensures |StripRight(s)| <= |s| && StripRight(s) == s[..|StripRight(s)|]
    ensures AllSpace(s[|StripRight(s)|..])
    ensures StripRight(s) == [] || !IsSpace(StripRight(s)[|StripRight(s)| - 1])
    decreases |s|
  {
    if |s| > 0 && IsSpace(s[|s| - 1]) {
      var t := s[..|s| - 1];
      StripRightSpec(t);
      var r := StripRight(t);
      assert StripRight(s) == r;
      assert s[..|r|] == t[..|r|];
      assert s[|r|..] == t[|r|..] + [s[|s| - 1]];
      AllSpaceAppend(t[|r|..], [s[|s| - 1]]);
    } else {
      assert s[|s|..] == [];
    }
  }

  /** `s.strip()`: the result has whitespace at neither end, it is empty exactly
      when `s` is all whitespace, and a string already free of surrounding
      whitespace is returned unchanged. */
  function Strip(s: string): (r: string)
    ensures Trimmed(r)
    ensures r == [] <==> AllSpace(s)
    ensures Trimmed(s) ==> r == s
  {
    var l := StripLeft(s);
    StripSpec(s, l);
    StripRight(l)
  }

  /** The facts behind the contract of `Strip`, for `l` the left-stripped `s`. */
  lemma StripSpec(s: string, l: string)
    requires l == StripLeft(s)
    ensures Trimmed(StripRight(l))
    ensures StripRight(l) == [] <==> AllSpace(s)
    ensures Trimmed(s) ==> StripRight(l) == s
  {
    StripLeftSpec(s);
    StripRightSpec(l);
    var r := StripRight(l);
    var k := |s| - |l|;
    assert s == s[..k] + l;
    AllSpaceAppend(s[..k], l);
    if r == [] {
      assert l[|r|..] == l;
    } else {
      assert r[0] == l[0];
    }
  }

  /** Left-stripping whitespace followed by a string that does not start with
      whitespace leaves exactly that string. */
  lemma {:induction false} StripLeftFrame(pre: string, u: string)
    requires AllSpace(pre)
    requires u == [] || !IsSpace(u[0])
    ensures StripLeft(pre + u) == u
    decreases |pre|
  {
    if |pre| == 0 {
      assert pre + u == u;
    } else {
      assert (pre + u)[0] == pre[0];
      assert (pre + u)[1..] == pre[1..] + u;
      assert AllSpace(pre[1..]) by {
        HeadTail(pre);
        AllSpaceAppend([pre[0]], pre[1..]);
      }
      StripLeftFrame(pre[1..], u);
    }
  }

  /** Right-stripping a string that does not end with whitespace followed by
      whitespace leaves exactly that string. */
  lemma {:induction false} StripRightFrame(u: string, post: string)
    requires AllSpace(post)
    requires u == [] || !IsSpace(u[|u| - 1])
    ensures StripRight(u + post) == u
    decreases |post|
  {
    if |post| == 0 {
      assert u + post == u;
    } else {
      var front := post[..|post| - 1];
      assert (u + post)[|u + post| - 1] == post[|post| - 1];
      assert (u + post)[..|u + post| - 1] == u + front;
      assert AllSpace(front) by {
        FrontLast(post);
        AllSpaceAppend(front, [post[|post| - 1]]);
      }
      StripRightFrame(u, front);
    }
  }

  /** `strip` removes exactly the surrounding whitespace: whatever is left
      between all-whitespace ends, when it is itself free of surrounding
      whitespace, is what `strip` returns. */
  lemma StripFrame(pre: string, t: string, post: string)
    requires AllSpace(pre) && AllSpace(post) && Trimmed(t)
    ensures Strip(pre + t + post) == t
  {
    if t == [] {
      assert pre + t + post == pre + post;
      AllSpaceAppend(pre, post);
    } else {
      assert pre + t + post == pre + (t + post);
      assert (t + post)[0] == t[0];
      StripLeftFrame(pre, t + post);
      StripRightFrame(t, post);
    }
  }

  /** Where `strip` cuts: `Strip(s)` sits in `s` at offset `k`, with only
      whitespace before and after it. */
  lemma StripBounds(s: string) returns (k: nat)
    ensures k + |Strip(s)| <= |s|
    ensures s == s[..k] + Strip(s) + s[k + |Strip(s)|..]
    ensures AllSpace(s[..k]) && AllSpace(s[k + |Strip(s)|..])
  {
    var l := StripLeft(s);
    StripLeftSpec(s);
    StripRightSpec(l);
    k := |s| - |l|;
    var r := StripRight(l);
    SliceParts(s, k, k + |r|);
    assert s[k..k + |r|] == r;
    assert s[k + |r|..] == l[|r|..];
  }

  /** Cutting a string at two points and gluing the pieces back together. */
  lemma SliceParts(s: string, i: int, j: int)
    requires 0 <= i <= j <= |s|
    ensures s == s[..i] + s[i..j] + s[j..]
  {
  }

  /** Whitespace added around a string makes no difference to `strip`. */
  lemma StripAround(pre: string, s: string, post: string)
    requires AllSpace(pre) && AllSpace(post)
    ensures Strip(pre + s + post) == Strip(s)
  {
    var k := StripBounds(s);
    var t := Strip(s);
    var a := s[..k];
    var c := s[k + |t|..];
    AllSpaceAppend(pre, a);
    AllSpaceAppend(c, post);
    Regroup(pre, s, a, t, c, post);
    StripFrame(pre + a, t, c + post);
  }

  /** Regrouping `p + s + q` around the middle part `t` of `s`. */
  lemma Regroup(p: string, s: string, a: string, t: string, c: string, q: string)
    requires s == a + t + c
    ensures p + s + q == (p + a) + t + (c + q)
  {
  }
}
